=== FILE: README.md ===
# rvc-gradio-server dispatcher: a Dafny model

This project models the request dispatcher of rvc-gradio-server. The server is a FastAPI front end. It hands each `/voice_convert` request to one of several RVC gradio backends. The model covers five parts of the source:

- **Worker pool** (`pool.dfy`, module `Pool`). The pool is a list of backend handles, one per configured URL, each with a busy flag. `initialize_clients` builds the pool. `get_available_client` scans it for the first free handle and marks that handle busy. The dispatcher releases a handle by clearing its flag.
- **Path rewriting** (`paths.dfy`, module `Paths`). `to_relative_path` splits a backend output path on `/` and finds the first segment equal to the base directory. It rebuilds the path from that segment as `./<base>/...`. The module also models Python's `str.split`, `str.join` and `list.index`.
- **Parameter range checks** (`params.dfy`, module `Params`). These are the checks in `InferenceParams.__post_init__`. They run in source order, and the first one that fails raises with its exact message.
- **Dispatcher** (`dispatcher.dfy`, module `Dispatcher`). This is the `voice_convert` handler: null-args check, acquire, path derivation, the `try`/`finally` block, the release, then the output copy and clean-up. The handler is a pure function. It returns the response, the pool afterwards and the ordered list of side effects (`Event`s) it performed.
- **Shared wrappers** (`wrappers.dfy`, module `Wrappers`). `Option` and `Result` types.

The file-system effects, the gradio RPC and the wait in the polling loop are not executed by the model:

- The effects become `Event`s.
- The backend's answer is a parameter, an `InferenceOutcome`.
- Whether staging the upload succeeded is a boolean parameter.
- One scan pass that finds no free handle gives the response `Waiting`.

The dispatcher is modelled twice:

- `Dispatcher.VoiceConvertAsWritten` follows src/main.py as written.
- `Dispatcher.VoiceConvert` is the intended handler. It reads the request keys inside the protected block, checks the parameter ranges before calling the backend, and releases the handle on every exit path.

The three defects of the code as written are listed under "## Findings", each stated as a lemma about the as-written member. The as-written handler also replaces every error raised after staging (backend failure, path-resolution failure, missing `inference_params`) with the unbound `audio_output_file`; `Dispatcher.AsWrittenMasksBackendFailure` and `Dispatcher.AsWrittenAgreesWithValidParams` state that difference.

Three behaviours of the code are worth stating plainly, because the model keeps them:

- `pitch_extraction_method` is declared as a plain `str` and is never checked. The `Literal` alias at src/gradio_helpers.py:11 is unused. `Params.ValidateIgnoresUncheckedFields` states this.
- The parameters are built inside the `try`, after a handle is acquired and the upload is staged. The intended handler keeps the range check in that position, so a range failure must still release the handle.
- The backend's output directory is removed only after a successful copy (src/main.py:103-109).

## Model

| member | source | states |
|---|---|---|
| Paths.Split | src/gradio_helpers.py:22 | Python `str.split` with an explicit separator never returns an empty list: the empty path gives one empty part |
| Paths.SplitPartsNoSep | src/gradio_helpers.py:22 | no part produced by the split contains the separator |
| Paths.JoinSplit | src/gradio_helpers.py:22-29 | joining the parts of a split with the same separator gives back the original path |
| Paths.SplitJoin | src/gradio_helpers.py:22-29 | splitting a join of non-empty, separator-free parts gives back those parts |
| Paths.JoinSeparatorCount | src/gradio_helpers.py:29 | `os.sep.join` of separator-free parts puts exactly one separator between each two consecutive parts and no other, so its length is the parts' total length plus the number of parts minus one |
| Paths.IndexOf | src/gradio_helpers.py:25-27 | `list.index` finds nothing (the `ValueError` case) exactly when the element is absent, and otherwise finds a position holding it |
| Paths.IndexOfFirst | src/gradio_helpers.py:25 | the position `list.index` reports is the first occurrence: no earlier element is equal to it |
| Paths.ToRelativePath | src/gradio_helpers.py:21-30 | fails exactly when the base directory is not one of the `/`-separated segments, with an error naming that base directory; on success the result starts with `./` |
| Paths.ToRelativePathSegment | src/gradio_helpers.py:21-29 | for a base without `/`: succeeds iff the base occurs as a whole segment of the path; the result is `./` followed by the path from the first whole-segment occurrence onward |
| Paths.ToRelativePathSepInBase | src/gradio_helpers.py:22-27 | a base directory containing `/` is never found, so the call always raises |
| Paths.ToRelativePathShape | src/gradio_helpers.py:29 | a successful result is `./`, then the base directory, then a `/` or the end of the string, and it ends with the last segment of the input path (the file name is kept) |
| Paths.ToRelativePathIdempotent | src/gradio_helpers.py:21-30 | rewriting an already rewritten path against the same base (other than `.`) changes nothing |
| Paths.ToRelativePathDotBase | src/gradio_helpers.py:21-30 | with base `.`, rewriting a rewritten path again prepends another `./`: idempotence really needs the base to differ from `.` |
| Paths.ToRelativePathAfterOneSegment | src/gradio_helpers.py:21-29 | a path `dir/base/rest`, where `dir` is a different single segment, is rewritten to `./base/rest` |
| Paths.ToRelativePathPartialMatch | src/gradio_helpers.py:21-27 | a segment that only starts with the base name (`shared2` for `shared`) does not count, and the call raises |
| Params.Validate | src/gradio_helpers.py:41-61 | the checks pass exactly when every checked field is in its closed range; a failure names a field that is out of range, and every field checked before it is in range |
| Params.ValidateReportsFirstFailure | src/gradio_helpers.py:41-61 | the reported field is the first out-of-range field in check order, so the outcome depends only on which fields are in range |
| Params.ValidateIgnoresUncheckedFields | src/gradio_helpers.py:32-61 | `transpose_pitch` and `pitch_extraction_method` never affect the outcome |
| Params.ErrorMessage | src/gradio_helpers.py:42-59 | each check's message begins with the name of the field it rejects |
| Params.ErrorMessagesDistinct | src/gradio_helpers.py:42-59 | different fields raise different messages, so the message identifies the failed check |
| Params.ValidateBoundaries | src/gradio_helpers.py:42-59 | every bound is inclusive; a value just past a bound is rejected, with that field named, rather than clamped |
| Pool.InitializeClients | src/main.py:35-39 | one handle per configured URL, in order, each with its flag clear |
| Pool.Acquire | src/main.py:42-48 | a scan finds nothing exactly when every handle is busy; otherwise it takes the first free handle, sets its flag and changes nothing else |
| Pool.Release | src/main.py:101 | clearing handle `i`'s flag changes no other handle, and releasing an already free handle changes nothing |
| Pool.ReleaseUndoesAcquire | src/main.py:44-101 | releasing the handle a scan took restores the pool exactly |
| Pool.AcquireCountsOne | src/main.py:44-47 | a successful scan puts exactly one more handle into use |
| Pool.ReleaseCountsOne | src/main.py:101 | releasing a busy handle takes exactly one handle out of use |
| Pool.ReleaseIdempotent | src/main.py:101 | releasing twice is the same as releasing once |
| Pool.AcquireFresh | src/main.py:35-47 | on the pool `initialize_clients` builds from a non-empty URL list no handle is busy, and the first scan takes the first backend |
| Pool.ConfiguredPoolFirstScan | src/main.py:18-47 | the configured pool has three handles, and the first scan marks the backend at `http://localhost:7865/` busy |
| Dispatcher.DerivePaths | src/main.py:68-70 | each request key can be read back from its path at a fixed position: the hash is the weight name before `.pth` and the index path between `shared/logs/` and `.index`, and the curve name is the F0 path after `shared/f0/` |
| Dispatcher.DerivePathsInjective | src/main.py:68-70 | path by path, different keys give different paths: two hashes with the same weight file name or the same index path are equal, and two curve names with the same F0 path are equal |
| Dispatcher.DerivedPathsUnderSharedRoot | src/main.py:69-70 | the index and F0 paths begin with the segment `shared`: rewriting them against `shared` succeeds and returns `./` plus the path |
| Dispatcher.Protected | src/main.py:72-95 | the `try` body: the input is staged iff both keys are present and staging succeeds; the result is the rewritten output path iff, in addition, the parameters are present (and in range when checked), the backend converted, and its path lies under `shared`; its events stage the input at most once, never remove it, never release a handle, and with checking on call the backend only with in-range parameters |
| Dispatcher.VoiceConvert | src/main.py:57-67 | `args` equal to JSON `null` gives a 400 "args is required" before any handle is touched; when every handle is busy the request waits with the pool unchanged and no effect performed (the rest of its behaviour is stated by the lemmas below) |
| Dispatcher.VoiceConvertAsWritten | src/main.py:57-67 | the same two guards as the intended handler: a 400 for `null` args, and a wait with the pool unchanged when every handle is busy (its failure paths are stated by the `AsWritten` lemmas below) |
| Dispatcher.VoiceConvertReleasesOnEveryPath | src/main.py:67-101 | once a handle is acquired, the handler releases it exactly once on every path, leaves the pool as it found it, and removes the staged input exactly when it was staged |
| Dispatcher.VoiceConvertResponse | src/main.py:67-116 | the response is audio iff both keys are present, staging succeeded, the parameters are present and in range, the backend converted, and its output path lies under `shared`; every other acquired request is a server error |
| Dispatcher.VoiceConvertReportsErrors | src/main.py:78-95 | an out-of-range field is reported with its own message, and a backend failure with valid parameters is reported as a backend failure |
| Dispatcher.BackendOnlySeesValidParams | src/main.py:79-95 | the backend is called only with parameters that pass every range check |
| Dispatcher.AsWrittenLeaksOnMissingKey | src/main.py:67-70 | as written, a request without `weights_sha256` leaves its handle busy: no release happens and the busy count goes up by one |
| Dispatcher.AsWrittenLeaksOnMissingCurve | src/main.py:67-70 | as written, a request without `f0_curve` leaks its handle the same way: the lookup at line 70 also runs before the `try` |
| Dispatcher.AsWrittenLeaksOnStagingFailure | src/main.py:72-101 | as written, a failed staging step leaves `input_file_path` unbound, so the `finally` raises before the release and the handle stays busy |
| Dispatcher.LeakBlocksLaterRequests | src/main.py:42-70 | with one backend, after one request that lacks a key, the next request waits forever as written but is served by the intended handler |
| Dispatcher.AsWrittenReleasesAfterStaging | src/main.py:72-101 | as written, once staging succeeds (and removing the staged input does not raise) the handle is released exactly once and the pool is restored |
| Dispatcher.AsWrittenAgreesWithValidParams | src/main.py:72-116 | for requests that carry both keys, whose upload is staged, and whose parameters are in range or missing, the two handlers perform the same effects and leave the same pool; they differ only in the error they report |
| Dispatcher.AsWrittenSkipsValidation | src/main.py:79-95 | as written, out-of-range parameters reach the backend call |
| Dispatcher.AsWrittenMasksBackendFailure | src/main.py:88-103 | as written, a backend failure is reported as the unbound `audio_output_file` rather than as the backend's error |

## Left out

- HTTP layer: FastAPI routing, the `Form`/`UploadFile` parameters, `json.loads` and the status codes are left out. The request is the parsed `Args` value. JSON that is neither `null` nor an object is not modelled. The 400 response is `BadRequest`, and any escaping exception is `ServerError`.
- `validation_exception_handler` (src/main.py:119-126) only logs and formats a 422, so it is left out. The decorator at src/main.py:35 registers `initialize_clients` as an exception handler. That registration is also left out. `Pool.InitializeClients` states what one call returns; nothing in the model calls it, and `Pool.AcquireFresh` and `Pool.ConfiguredPoolFirstScan` state what the first scan of the pool it builds does.
- `VoiceConvertArgs` (src/main.py:51-54) is declared but never used by the handler.
- Pool.InitializeClients: the gradio `Client` each handle holds is a foreign RPC session, so a handle is only its URL and flag. The URL list is a parameter; `Pool.GradioServerUrls` holds the configured one.
- Pool.Acquire: models one pass of the polling loop. The `asyncio.sleep` and the rescans are left out, and a pass that finds nothing becomes the response `Waiting`. Interleaving between concurrent requests is not modelled. The single-threaded event loop makes each scan-and-mark step atomic.
- File system: staging, removing the input, copying the output and `rmtree` are abstract `Event`s. Whether staging succeeded is a parameter. The `os.path.isfile` checks at src/main.py:98 and src/main.py:103 are taken as true, so the case where the handler returns `None` because the output file is missing is not modelled. `RemoveOutputDir` carries the output path itself instead of its directory name. Removing the input, copying the output and `rmtree` are assumed not to raise. In the source, a raising `os.remove` at src/main.py:99 (the file vanishing after the `isfile` check, or a permission error) would skip the release at src/main.py:101 and leak the handle; the model does not cover that path.
- Dispatcher.AsWrittenReleasesAfterStaging: holds only under the assumption above that `os.remove` at src/main.py:99 does not raise.
- `infer_convert` (src/gradio_helpers.py:66-103): the two `client.predict` calls are foreign RPCs, and the backend's answer is an `InferenceOutcome` parameter. The call always passes `F0_CURVE_PATH` (src/gradio_helpers.py:87) and never the requested `f0_curve_path`, so `CallBackend` carries no F0 path.
- Params.Validate: the `round(x, 2)` steps at src/gradio_helpers.py:44-45, 55-56 and 60-61 are left out, because they depend on binary floating point. The ratio fields are modelled as reals.
- Params.Validate: pydantic's own type coercion of the seven fields, and a missing sub-key of `inference_params`, are both modelled as `inferenceParams` being `None`. That case is reported like a missing key.
- Dispatcher.VoiceConvertAsWritten: among the request keys read at src/main.py:68-70 only a missing key is modelled; a key is a string or absent. A non-string JSON value formatted into a path (`null` gives `None.pth`) is not modelled.
- Dispatcher.DerivePaths: the request keys are never checked for `/` or `..` (src/main.py:68-70), so a request can name files outside `shared/` (`weights_sha256` `../../x` gives `shared/logs/../../x.index`). The model builds the strings as the source does and does not resolve them against a file system.
- Paths.ToRelativePath: the error carries the base directory (`BaseDirNotFound(baseDir)`) instead of the formatted message text.
- Logging, `PORT`, `RVC_OUT_DIR` and the `pitch_extraction_method` `Literal` alias are configuration or unused, and are left out.

## Findings

| source | as written | input that shows it | evidently intended | confidence | as-written member | corrected member |
|---|---|---|---|---|---|---|
| src/main.py:67-70 | the request keys are read with `args[...]` after the handle is marked busy and before the `try` | args `{"f0_curve": "f0G48k.pth"}`: `KeyError`, and the acquired handle's busy flag is never cleared; with a pool of one backend (or once every backend has leaked this way) every later request polls forever | a handle that has been acquired is released on every exit path | high, not executed | Dispatcher.AsWrittenLeaksOnMissingKey | Dispatcher.VoiceConvertReleasesOnEveryPath |
| src/main.py:72-101 | the `finally` reads `input_file_path`, which is unbound when staging raised, so line 98 raises before the release at line 101 | a request whose upload cannot be copied to `shared/input` because `shared/` itself is missing, or `shared/input` is not writable (permission denied, disk full) | the release at line 101 runs whatever staging did | high, not executed | Dispatcher.AsWrittenLeaksOnStagingFailure | Dispatcher.VoiceConvertReleasesOnEveryPath |
| src/gradio_helpers.py:32-61 | the range checks sit in `__post_init__` of a pydantic `BaseModel`, which pydantic never calls | `inference_params` with `search_feature_ratio` 2.0 is passed to the backend unchecked | out-of-range parameters are rejected with their message before any backend call | high, not executed | Dispatcher.AsWrittenSkipsValidation | Dispatcher.BackendOnlySeesValidParams |

=== FILE: dispatcher.dfy ===
/** The request handler `voice_convert` of src/main.py, reduced to its control
    flow: parse the arguments, take a handle from the pool, derive the model
    paths, stage the upload, build the inference parameters, call the
    backend, and in the `finally` block remove the staged input and release
    the handle.

    The backend call and the staging of the upload are effects of the
    outside world, so they are parameters: `stagingOk` says whether copying
    the upload into `shared/input` succeeded, and `inference` what the
    backend did. File-system effects are recorded as abstract events.

    Two versions are modelled. `VoiceConvertAsWritten` follows the source
    line by line, including the paths on which the busy flag is never
    cleared and the parameter checks that never run; `VoiceConvert` is the
    intended behaviour, with every step after the acquisition inside the
    protected region and the parameters checked before the backend call. */
module Dispatcher {
  import opened Wrappers
  import opened Paths
  import opened Pool
  import opened Params

  /** The shared root directory name used to normalise backend paths. */
  const SharedRoot: string := "shared"

  /** The parsed `args` form field: JSON `null`, or an object whose keys may
      be missing. `inferenceParams` is `None` when the `inference_params`
      object or one of its seven keys is missing. */
  datatype Args =
    | NullArgs
    | ArgsObject(weightsSha256: Option<string>, f0Curve: Option<string>, inferenceParams: Option<InferenceParams>)

  /** The three paths derived from a request. */
  datatype RequestPaths = RequestPaths(modelWeightsFilename: string, modelIndexPath: string, f0CurvePath: string)

  /** Lines 68-70 of src/main.py: the weight file name, the feature index
      path and the F0 curve path. Each key can be read back from its path at
      a fixed position, and each path carries its directory and extension. */
  function DerivePaths(sha: string, f0Curve: string): (r: RequestPaths)
    ensures |r.modelWeightsFilename| == |sha| + 4
    ensures r.modelWeightsFilename[..|sha|] == sha && r.modelWeightsFilename[|sha|..] == ".pth"
    ensures |r.modelIndexPath| == |sha| + 18
    ensures r.modelIndexPath[..12] == "shared/logs/" && r.modelIndexPath[12..12 + |sha|] == sha
    ensures r.modelIndexPath[12 + |sha|..] == ".index"
    ensures |r.f0CurvePath| == |f0Curve| + 10
    ensures r.f0CurvePath[..10] == "shared/f0/" && r.f0CurvePath[10..] == f0Curve
  {
    RequestPaths(sha + ".pth", "shared/logs/" + sha + ".index", "shared/f0/" + f0Curve)
  }

  /** What the backend did with the job: returned an output path, or raised. */
  datatype InferenceOutcome = Converted(outputPath: string) | InferenceError

  /** The abstract effects a request has on the pool and the file system.
      `RemoveOutputDir` removes the directory that holds the output file. */
  datatype Event =
    | AcquireHandle(index: nat)
    | StageInput
    | CallBackend(modelWeightsFilename: string, modelIndexPath: string, params: InferenceParams)
    | RemoveInput
    | ReleaseHandle(index: nat)
    | CopyOutput(path: string)
    | RemoveOutputDir(path: string)

  /** Why a request failed. */
  datatype DispatchError =
    | MissingKey(key: string)
    | StagingFailed
    | InvalidParams(message: string)
    | InferenceFailed
    | PathResolutionFailed(cause: PathError)
    | UnboundLocal(name: string)

  /** What the caller sees: the audio file, a 400, a server error, or (after a
      scan that found every handle busy) nothing yet. */
  datatype Response = Audio(path: string) | BadRequest(detail: string) | ServerError(error: DispatchError) | Waiting

  /** A request's response, the pool after it, and its effects in order. */
  datatype Outcome = Outcome(response: Response, pool: Handles, events: seq<Event>)

  /** The protected region's result: the relative output path or the error it
      raised, whether the input was staged, and its effects. */
  datatype Attempt = Attempt(result: Result<string, DispatchError>, staged: bool, events: seq<Event>)

  /** No event of `events` releases a handle. */
  predicate NoRelease(events: seq<Event>)
  {
    forall k :: 0 <= k < |events| ==> !events[k].ReleaseHandle?
  }

  /** Every release event of `events` releases handle `i`, and there is
      exactly one. */
  predicate ReleasedOnce(events: seq<Event>, i: nat)
  {
    && multiset(events)[ReleaseHandle(i)] == 1
    && forall k :: 0 <= k < |events| && events[k].ReleaseHandle? ==> events[k] == ReleaseHandle(i)
  }

  /** The work between acquisition and cleanup: read the keys, stage the
      upload, build the inference parameters (checking their ranges when
      `checkParams` holds), call the backend, and normalise the returned path
      against the shared root (inside `infer_convert`). */
  function Protected(args: Args, stagingOk: bool, checkParams: bool, inference: InferenceOutcome): (t: Attempt)
    requires args.ArgsObject?
    ensures t.staged <==> args.weightsSha256.Some? && args.f0Curve.Some? && stagingOk
    ensures t.result.Success? <==>
      && t.staged && args.inferenceParams.Some?
      && (checkParams ==> Validate(args.inferenceParams.value).Valid?)
      && inference.Converted? && ToRelativePath(inference.outputPath, SharedRoot).Success?
    ensures t.result.Success? ==> t.result.value == ToRelativePath(inference.outputPath, SharedRoot).value
    ensures NoRelease(t.events)
    ensures multiset(t.events)[StageInput] == (if t.staged then 1 else 0)
    ensures multiset(t.events)[RemoveInput] == 0
    ensures checkParams ==>
      forall k :: 0 <= k < |t.events| && t.events[k].CallBackend? ==> Validate(t.events[k].params).Valid?
  {
    if args.weightsSha256.None? then Attempt(Failure(MissingKey("weights_sha256")), false, [])
    else if args.f0Curve.None? then Attempt(Failure(MissingKey("f0_curve")), false, [])
    else if !stagingOk then Attempt(Failure(StagingFailed), false, [])
    else if args.inferenceParams.None? then Attempt(Failure(MissingKey("inference_params")), true, [StageInput])
    else
      var params := args.inferenceParams.value;
      var v := Validate(params);
      if checkParams && v.OutOfRange? then
        Attempt(Failure(InvalidParams(ErrorMessage(v.field))), true, [StageInput])
      else
        var paths := DerivePaths(args.weightsSha256.value, args.f0Curve.value);
        var work := [StageInput, CallBackend(paths.modelWeightsFilename, paths.modelIndexPath, params)];
        match inference
        case InferenceError => Attempt(Failure(InferenceFailed), true, work)
        case Converted(out) =>
          match ToRelativePath(out, SharedRoot)
          case Failure(e) => Attempt(Failure(PathResolutionFailed(e)), true, work)
          case Success(rel) => Attempt(Success(rel), true, work)
  }

  /** `voice_convert` with every step after the acquisition protected: the
      `finally` block removes the staged input and releases the handle on
      every path, and a successful request then copies the output and
      removes its job directory. */
  function VoiceConvert(pool: Handles, args: Args, stagingOk: bool, inference: InferenceOutcome): (o: Outcome)
    ensures args.NullArgs? ==> o == Outcome(BadRequest("args is required"), pool, [])
    ensures args.ArgsObject? && Acquire(pool).None? ==> o == Outcome(Waiting, pool, [])
  {
    if args.NullArgs? then Outcome(BadRequest("args is required"), pool, [])
    else
      match Acquire(pool)
      case None => Outcome(Waiting, pool, [])
      case Some(a) =>
        var t := Protected(args, stagingOk, true, inference);
        var response := match t.result
          case Success(rel) => Audio(rel)
          case Failure(e) => ServerError(e);
        Outcome(response, Release(a.pool, a.index),
                BeforeRelease(t, a.index) + [ReleaseHandle(a.index)] + AfterRelease(t))
  }

  /** The events up to the release: the acquisition, the protected work, and
      the removal of the input if it was staged. */
  function BeforeRelease(t: Attempt, i: nat): seq<Event>
  {
    [AcquireHandle(i)] + t.events + (if t.staged then [RemoveInput] else [])
  }

  /** The events after the release: on success the output is copied and its
      job directory removed. */
  function AfterRelease(t: Attempt): seq<Event>
  {
    match t.result
    case Success(rel) => [CopyOutput(rel), RemoveOutputDir(rel)]
    case Failure(_) => []
  }

  /** `voice_convert` as written. The keys `weights_sha256` and `f0_curve` are
      read after the acquisition but before `try`, so a missing one raises
      with the handle still busy. A failure while staging leaves
      `input_file_path` unbound, so the first line of `finally` raises before
      the flag is cleared. The parameters are built by a pydantic model,
      which never calls `__post_init__`, so their ranges are not checked. Any
      failure after staging leaves `audio_output_file` unbound, so `finally`
      raises after the release and replaces the original exception. */
  function VoiceConvertAsWritten(pool: Handles, args: Args, stagingOk: bool, inference: InferenceOutcome): (o: Outcome)
    ensures args.NullArgs? ==> o == Outcome(BadRequest("args is required"), pool, [])
    ensures args.ArgsObject? && Acquire(pool).None? ==> o == Outcome(Waiting, pool, [])
  {
    if args.NullArgs? then Outcome(BadRequest("args is required"), pool, [])
    else
      match Acquire(pool)
      case None => Outcome(Waiting, pool, [])
      case Some(a) =>
        var taken := [AcquireHandle(a.index)];
        if args.weightsSha256.None? then
          Outcome(ServerError(MissingKey("weights_sha256")), a.pool, taken)
        else if args.f0Curve.None? then
          Outcome(ServerError(MissingKey("f0_curve")), a.pool, taken)
        else if !stagingOk then
          Outcome(ServerError(UnboundLocal("input_file_path")), a.pool, taken)
        else
          var t := Protected(args, true, false, inference);
          var response := match t.result
            case Success(rel) => Audio(rel)
            case Failure(_) => ServerError(UnboundLocal("audio_output_file"));
          Outcome(response, Release(a.pool, a.index),
                  BeforeRelease(t, a.index) + [ReleaseHandle(a.index)] + AfterRelease(t))
  }

  // ---------------------------------------------------------------------
  // Request paths

  /** Distinct requests name distinct files, path by path: two hashes that
      give the same weight file name, or the same index path, are equal, and
      two curve names that give the same F0 path are equal. */
  lemma DerivePathsInjective(sha1: string, f1: string, sha2: string, f2: string)
    ensures DerivePaths(sha1, f1).modelWeightsFilename == DerivePaths(sha2, f2).modelWeightsFilename
         ==> sha1 == sha2
    ensures DerivePaths(sha1, f1).modelIndexPath == DerivePaths(sha2, f2).modelIndexPath
         ==> sha1 == sha2
    ensures DerivePaths(sha1, f1).f0CurvePath == DerivePaths(sha2, f2).f0CurvePath
         ==> f1 == f2
  {
  }

  /** A consistency fact about the `shared/` layout, not a step of the
      handler: the handler never rewrites these two paths (the index path goes
      to the backend as it is, and the F0 path is dropped by `infer_convert`).
      Both already start with the shared root, so normalising them against it
      would only prefix `./`. */
  lemma DerivedPathsUnderSharedRoot(sha: string, f0Curve: string)
    ensures var p := DerivePaths(sha, f0Curve);
      && ToRelativePath(p.modelIndexPath, SharedRoot) == Success(['.', Sep] + p.modelIndexPath)
      && ToRelativePath(p.f0CurvePath, SharedRoot) == Success(['.', Sep] + p.f0CurvePath)
  {
    var p := DerivePaths(sha, f0Curve);
    assert "shared/logs/" == SharedRoot + [Sep] + "logs/";
    assert p.modelIndexPath == SharedRoot + [Sep] + ("logs/" + sha + ".index");
    UnderSharedRoot("logs/" + sha + ".index");
    assert "shared/f0/" == SharedRoot + [Sep] + "f0/";
    assert p.f0CurvePath == SharedRoot + [Sep] + ("f0/" + f0Curve);
    UnderSharedRoot("f0/" + f0Curve);
  }

  /** A path whose first segment is the shared root normalises to itself
      behind `./`. */
  lemma UnderSharedRoot(rest: string)
    ensures ToRelativePath(SharedRoot + [Sep] + rest, SharedRoot)
         == Success(['.', Sep] + (SharedRoot + [Sep] + rest))
  {
    var path := SharedRoot + [Sep] + rest;
    SplitConcat(SharedRoot, rest, Sep);
    var parts := Split(path, Sep);
    assert parts[0] == SharedRoot;
    assert IndexOf(parts, SharedRoot) == Some(0);
    assert parts[0..] == parts;
    JoinSplit(path, Sep);
    assert ToRelativePath(path, SharedRoot) == Success(['.', Sep] + Join(Sep, parts[0..]));
  }

  // ---------------------------------------------------------------------
  // The intended behaviour

  /** On every path after a handle was taken, the handle is released exactly
      once and the pool is back to what it was before the request; the
      staged input is removed exactly when it was staged. */
  lemma VoiceConvertReleasesOnEveryPath(pool: Handles, args: Args, stagingOk: bool, inference: InferenceOutcome)
    requires args.ArgsObject? && Acquire(pool).Some?
    ensures var i := Acquire(pool).value.index;
      var o := VoiceConvert(pool, args, stagingOk, inference);
      && o.pool == pool
      && BusyCount(o.pool) == BusyCount(pool)
      && |o.events| > 0 && o.events[0] == AcquireHandle(i)
      && ReleasedOnce(o.events, i)
      && multiset(o.events)[StageInput] == multiset(o.events)[RemoveInput] <= 1
  {
    ReleaseUndoesAcquire(pool);
    var a := Acquire(pool).value;
    var t := Protected(args, stagingOk, true, inference);
    var o := VoiceConvert(pool, args, stagingOk, inference);
    assert o.pool == Release(a.pool, a.index);
    assert o.events == BeforeRelease(t, a.index) + [ReleaseHandle(a.index)] + AfterRelease(t);
    CleanupEvents(t, a.index);
  }

  /** Around the single release, the cleanup events pair each staged input
      with its removal and release nothing else. */
  lemma CleanupEvents(t: Attempt, i: nat)
    requires NoRelease(t.events)
    requires multiset(t.events)[StageInput] == (if t.staged then 1 else 0)
    requires multiset(t.events)[RemoveInput] == 0
    ensures var events := BeforeRelease(t, i) + [ReleaseHandle(i)] + AfterRelease(t);
      && events[0] == AcquireHandle(i)
      && ReleasedOnce(events, i)
      && multiset(events)[StageInput] == multiset(events)[RemoveInput] <= 1
  {
    ReleasedOnceBetween(BeforeRelease(t, i), i, AfterRelease(t));
    InputPaired(t, i);
  }

  /** The staged input is removed exactly when it was staged. */
  lemma InputPaired(t: Attempt, i: nat)
    requires multiset(t.events)[StageInput] == (if t.staged then 1 else 0)
    requires multiset(t.events)[RemoveInput] == 0
    ensures var m := multiset(BeforeRelease(t, i) + [ReleaseHandle(i)] + AfterRelease(t));
      m[StageInput] == m[RemoveInput] <= 1
  {
    var input := if t.staged then [RemoveInput] else [];
    var after := AfterRelease(t);
    assert multiset(after)[StageInput] == 0 && multiset(after)[RemoveInput] == 0;
    assert multiset(BeforeRelease(t, i) + [ReleaseHandle(i)] + after)
        == multiset{AcquireHandle(i)} + multiset(t.events) + multiset(input)
           + multiset{ReleaseHandle(i)} + multiset(after);
  }

  /** A single release between two stretches without releases is released once. */
  lemma ReleasedOnceBetween(before: seq<Event>, i: nat, after: seq<Event>)
    requires NoRelease(before) && NoRelease(after)
    ensures ReleasedOnce(before + [ReleaseHandle(i)] + after, i)
  {
    var events := before + [ReleaseHandle(i)] + after;
    assert multiset(events) == multiset(before) + multiset{ReleaseHandle(i)} + multiset(after);
  }

  /** The response: audio exactly when every key is present, the upload was
      staged, the parameters are in range, the backend returned a path and
      that path lies under the shared root; the audio is the normalised path,
      whose job directory is removed after copying. Out-of-range parameters
      are reported with the message of the first failing check, and a
      backend failure is reported as such. */
  lemma VoiceConvertResponse(pool: Handles, args: Args, stagingOk: bool, inference: InferenceOutcome)
    requires args.ArgsObject? && Acquire(pool).Some?
    ensures var o := VoiceConvert(pool, args, stagingOk, inference);
      && (o.response.Audio? <==>
            && args.weightsSha256.Some? && args.f0Curve.Some? && stagingOk
            && args.inferenceParams.Some? && Validate(args.inferenceParams.value).Valid?
            && inference.Converted? && ToRelativePath(inference.outputPath, SharedRoot).Success?)
      && (o.response.Audio? ==>
            && o.response.path == ToRelativePath(inference.outputPath, SharedRoot).value
            && o.events[|o.events| - 1] == RemoveOutputDir(o.response.path))
      && (!o.response.Audio? ==> o.response.ServerError?)
  {
  }

  /** Once the keys are present and the upload is staged, the parameters
      decide: out-of-range ones are refused with the message of the first
      failing check, and with in-range ones a backend failure is reported as
      such. */
  lemma VoiceConvertReportsErrors(pool: Handles, sha: string, f0Curve: string, params: InferenceParams,
                                  inference: InferenceOutcome)
    requires Acquire(pool).Some?
    ensures var o := VoiceConvert(pool, ArgsObject(Some(sha), Some(f0Curve), Some(params)), true, inference);
      && (Validate(params).OutOfRange? ==>
            o.response == ServerError(InvalidParams(ErrorMessage(Validate(params).field))))
      && (Validate(params).Valid? && inference.InferenceError? ==>
            o.response == ServerError(InferenceFailed))
  {
  }

  /** The backend is only ever called with parameters that pass every range
      check. */
  lemma BackendOnlySeesValidParams(pool: Handles, args: Args, stagingOk: bool, inference: InferenceOutcome)
    ensures var o := VoiceConvert(pool, args, stagingOk, inference);
      forall k :: 0 <= k < |o.events| && o.events[k].CallBackend? ==> Validate(o.events[k].params).Valid?
  {
    if args.ArgsObject? && Acquire(pool).Some? {
      var a := Acquire(pool).value;
      var t := Protected(args, stagingOk, true, inference);
      var o := VoiceConvert(pool, args, stagingOk, inference);
      assert o.events == BeforeRelease(t, a.index) + [ReleaseHandle(a.index)] + AfterRelease(t);
    }
  }

  // ---------------------------------------------------------------------
  // The code as written

  /** A request whose arguments lack `weights_sha256` leaves its handle busy
      for good: nothing releases it. */
  lemma AsWrittenLeaksOnMissingKey(pool: Handles, f0Curve: Option<string>, params: Option<InferenceParams>,
                                   stagingOk: bool, inference: InferenceOutcome)
    requires Acquire(pool).Some?
    ensures var o := VoiceConvertAsWritten(pool, ArgsObject(None, f0Curve, params), stagingOk, inference);
      && NoRelease(o.events)
      && BusyCount(o.pool) == BusyCount(pool) + 1
      && o.pool != pool
  {
    AcquireCountsOne(pool);
  }

  /** Likewise, a request whose arguments lack `f0_curve` leaves its handle
      busy for good: the lookup at line 70 also runs before the `try`. */
  lemma AsWrittenLeaksOnMissingCurve(pool: Handles, sha: string, params: Option<InferenceParams>,
                                     stagingOk: bool, inference: InferenceOutcome)
    requires Acquire(pool).Some?
    ensures var o := VoiceConvertAsWritten(pool, ArgsObject(Some(sha), None, params), stagingOk, inference);
      && NoRelease(o.events)
      && BusyCount(o.pool) == BusyCount(pool) + 1
      && o.pool != pool
  {
    AcquireCountsOne(pool);
  }

  /** A request whose upload cannot be staged leaves its handle busy for good. */
  lemma AsWrittenLeaksOnStagingFailure(pool: Handles, sha: string, f0Curve: string, params: Option<InferenceParams>,
                                       inference: InferenceOutcome)
    requires Acquire(pool).Some?
    ensures var o := VoiceConvertAsWritten(pool, ArgsObject(Some(sha), Some(f0Curve), params), false, inference);
      && NoRelease(o.events)
      && BusyCount(o.pool) == BusyCount(pool) + 1
      && o.pool != pool
  {
    AcquireCountsOne(pool);
  }

  /** With one backend, a single request missing a key makes every later
      scan find nothing: all later requests wait forever. The intended
      handler leaves the backend free for the next request. */
  lemma LeakBlocksLaterRequests(url: string, next: Args, stagingOk: bool, inference: InferenceOutcome)
    requires next.ArgsObject?
    ensures var bad := ArgsObject(None, Some("f0G48k.pth"), None);
      var leaked := VoiceConvertAsWritten([Handle(url, false)], bad, true, InferenceError).pool;
      var kept := VoiceConvert([Handle(url, false)], bad, true, InferenceError).pool;
      && VoiceConvertAsWritten(leaked, next, stagingOk, inference).response == Waiting
      && VoiceConvert(kept, next, stagingOk, inference).response != Waiting
  {
  }

  /** When the keys are present and staging succeeds, the release in the
      `finally` block runs whatever happens next: the handle is released
      exactly once and the pool is restored. */
  lemma AsWrittenReleasesAfterStaging(pool: Handles, sha: string, f0Curve: string, params: Option<InferenceParams>,
                                      inference: InferenceOutcome)
    requires Acquire(pool).Some?
    ensures var o := VoiceConvertAsWritten(pool, ArgsObject(Some(sha), Some(f0Curve), params), true, inference);
      && o.pool == pool
      && ReleasedOnce(o.events, Acquire(pool).value.index)
  {
    ReleaseUndoesAcquire(pool);
    var a := Acquire(pool).value;
    var args := ArgsObject(Some(sha), Some(f0Curve), params);
    var t := Protected(args, true, false, inference);
    var o := VoiceConvertAsWritten(pool, args, true, inference);
    assert o.pool == Release(a.pool, a.index);
    assert o.events == BeforeRelease(t, a.index) + [ReleaseHandle(a.index)] + AfterRelease(t);
    CleanupEvents(t, a.index);
  }

  /** With in-range parameters (or none), the code as written and the
      intended handler have the same effects and the same successes; they
      differ only in the response to a failure, which as written is always
      the unbound `audio_output_file`. */
  lemma AsWrittenAgreesWithValidParams(pool: Handles, sha: string, f0Curve: string, params: Option<InferenceParams>,
                                       inference: InferenceOutcome)
    requires Acquire(pool).Some?
    requires params.Some? ==> Validate(params.value).Valid?
    ensures var args := ArgsObject(Some(sha), Some(f0Curve), params);
      var o := VoiceConvertAsWritten(pool, args, true, inference);
      var c := VoiceConvert(pool, args, true, inference);
      && o.pool == c.pool
      && o.events == c.events
      && (c.response.Audio? ==> o.response == c.response)
      && (!c.response.Audio? ==> o.response == ServerError(UnboundLocal("audio_output_file")))
  {
    var args := ArgsObject(Some(sha), Some(f0Curve), params);
    assert Protected(args, true, false, inference) == Protected(args, true, true, inference);
  }

  /** Out-of-range parameters reach the backend as written, because the range
      checks never run. */
  lemma AsWrittenSkipsValidation(pool: Handles, sha: string, f0Curve: string, params: InferenceParams,
                                 inference: InferenceOutcome)
    requires Acquire(pool).Some?
    requires Validate(params).OutOfRange?
    ensures var paths := DerivePaths(sha, f0Curve);
      var o := VoiceConvertAsWritten(pool, ArgsObject(Some(sha), Some(f0Curve), Some(params)), true, inference);
      CallBackend(paths.modelWeightsFilename, paths.modelIndexPath, params) in o.events
  {
    var a := Acquire(pool).value;
    var args := ArgsObject(Some(sha), Some(f0Curve), Some(params));
    var t := Protected(args, true, false, inference);
    var paths := DerivePaths(sha, f0Curve);
    assert t.events == [StageInput, CallBackend(paths.modelWeightsFilename, paths.modelIndexPath, params)];
    assert VoiceConvertAsWritten(pool, args, true, inference).events
        == BeforeRelease(t, a.index) + [ReleaseHandle(a.index)] + AfterRelease(t);
    assert BeforeRelease(t, a.index)[2] == t.events[1];
  }

  /** A backend failure is masked as written: the caller sees the unbound
      `audio_output_file`, whereas the intended handler reports the failure. */
  lemma AsWrittenMasksBackendFailure(pool: Handles, sha: string, f0Curve: string, params: InferenceParams)
    requires Acquire(pool).Some?
    requires Validate(params).Valid?
    ensures var args := ArgsObject(Some(sha), Some(f0Curve), Some(params));
      && VoiceConvertAsWritten(pool, args, true, InferenceError).response
         == ServerError(UnboundLocal("audio_output_file"))
      && VoiceConvert(pool, args, true, InferenceError).response == ServerError(InferenceFailed)
  {
  }
}

=== FILE: params.dfy ===
/** The range checks of `InferenceParams.__post_init__` in
    src/gradio_helpers.py. The checks run in a fixed order and the first one
    that fails raises; rounding of in-range ratios is not modelled. The three
    ratio fields are Python floats, modelled as mathematical reals. */
module Params {

  /** The seven request knobs. `transposePitch` and `pitchExtractionMethod`
      are carried but never checked. */
  datatype InferenceParams = InferenceParams(
    transposePitch: int,
    pitchExtractionMethod: string,
    searchFeatureRatio: real,
    filterRadius: int,
    audioResampling: int,
    volumeEnvelopeScaling: real,
    artifactProtection: real)

  /** The fields that carry a range check. */
  datatype Field =
    | SearchFeatureRatio
    | FilterRadius
    | AudioResampling
    | VolumeEnvelopeScaling
    | ArtifactProtection

  /** The outcome of the checks: all passed, or the field whose check raised. */
  datatype Validation = Valid | OutOfRange(field: Field)

  /** The order in which the checks run. */
  const CheckOrder: seq<Field> :=
    [SearchFeatureRatio, FilterRadius, AudioResampling, VolumeEnvelopeScaling, ArtifactProtection]

  /** The position of a field's check in `CheckOrder`. */
  function Rank(f: Field): (n: nat)
    ensures n < |CheckOrder| && CheckOrder[n] == f
  {
    match f
    case SearchFeatureRatio => 0
    case FilterRadius => 1
    case AudioResampling => 2
    case VolumeEnvelopeScaling => 3
    case ArtifactProtection => 4
  }

  /** A field's value, integer fields read as reals. */
  function Value(p: InferenceParams, f: Field): real
  {
    match f
    case SearchFeatureRatio => p.searchFeatureRatio
    case FilterRadius => p.filterRadius as real
    case AudioResampling => p.audioResampling as real
    case VolumeEnvelopeScaling => p.volumeEnvelopeScaling
    case ArtifactProtection => p.artifactProtection
  }

  /** The closed range each field must lie in; every lower bound is zero. */
  function UpperBound(f: Field): real
  {
    match f
    case SearchFeatureRatio => 1.0
    case FilterRadius => 7.0
    case AudioResampling => 48000.0
    case VolumeEnvelopeScaling => 1.0
    case ArtifactProtection => 0.5
  }

  /** A field's value lies in its documented range. */
  predicate InRange(p: InferenceParams, f: Field)
  {
    0.0 <= Value(p, f) <= UpperBound(f)
  }

  /** A field's name in the request and in the source. */
  function FieldName(f: Field): string
  {
    match f
    case SearchFeatureRatio => "search_feature_ratio"
    case FilterRadius => "filter_radius"
    case AudioResampling => "audio_resampling"
    case VolumeEnvelopeScaling => "volume_envelope_scaling"
    case ArtifactProtection => "artifact_protection"
  }

  /** The range a field's message states. */
  function RangeText(f: Field): string
  {
    match f
    case SearchFeatureRatio => "an float from 0.0 to 1.0"
    case FilterRadius => "an integer from 0 to 7"
    case AudioResampling => "an integer from 0 to 48000"
    case VolumeEnvelopeScaling => "an float from 0.0 to 1.0"
    case ArtifactProtection => "an float from 0.0 to 0.5"
  }

  /** The message each check raises with: it names the rejected field first. */
  function ErrorMessage(f: Field): (m: string)
    ensures |FieldName(f)| < |m| && m[..|FieldName(f)|] == FieldName(f)
  {
    FieldName(f) + " must be " + RangeText(f)
  }

  /** `__post_init__`: the checks in source order; the first failing one decides. */
  function Validate(p: InferenceParams): (v: Validation)
    ensures v.OutOfRange? ==>
      && !InRange(p, v.field)
      && forall g: Field :: Rank(g) < Rank(v.field) ==> InRange(p, g)
    ensures v.Valid? <==> forall f: Field :: InRange(p, f)
  {
    if !(0.0 <= p.searchFeatureRatio <= 1.0) then OutOfRange(SearchFeatureRatio)
    else if !(0 <= p.filterRadius <= 7) then OutOfRange(FilterRadius)
    else if !(0 <= p.audioResampling <= 48000) then OutOfRange(AudioResampling)
    else if !(0.0 <= p.volumeEnvelopeScaling <= 1.0) then OutOfRange(VolumeEnvelopeScaling)
    else if !(0.0 <= p.artifactProtection <= 0.5) then OutOfRange(ArtifactProtection)
    else Valid
  }

  /** Each field raises its own message, so the caller can tell which check failed. */
  lemma ErrorMessagesDistinct(f: Field, g: Field)
    requires f != g
    ensures ErrorMessage(f) != ErrorMessage(g)
  {
  }

  /** The reported field is the first out-of-range field in check order, so
      validation is determined by which fields are in range. */
  lemma ValidateReportsFirstFailure(p: InferenceParams, f: Field)
    requires !InRange(p, f)
    requires forall g: Field :: Rank(g) < Rank(f) ==> InRange(p, g)
    ensures Validate(p) == OutOfRange(f)
  {
  }

  /** The unchecked fields never influence the outcome. */
  lemma ValidateIgnoresUncheckedFields(p: InferenceParams, pitch: int, extraction: string)
    ensures Validate(p.(transposePitch := pitch, pitchExtractionMethod := extraction)) == Validate(p)
  {
  }

  /** Boundary values are accepted and values just past a bound are rejected
      with that field, never clamped into range. */
  lemma ValidateBoundaries(pitch: int, extraction: string)
    ensures Validate(InferenceParams(pitch, extraction, 0.0, 0, 0, 0.0, 0.0)) == Valid
    ensures Validate(InferenceParams(pitch, extraction, 1.0, 7, 48000, 1.0, 0.5)) == Valid
    ensures Validate(InferenceParams(pitch, extraction, 1.01, 7, 48000, 1.0, 0.5)) == OutOfRange(SearchFeatureRatio)
    ensures Validate(InferenceParams(pitch, extraction, -0.01, 0, 0, 0.0, 0.0)) == OutOfRange(SearchFeatureRatio)
    ensures Validate(InferenceParams(pitch, extraction, 0.0, 8, 0, 0.0, 0.0)) == OutOfRange(FilterRadius)
    ensures Validate(InferenceParams(pitch, extraction, 0.0, -1, 0, 0.0, 0.0)) == OutOfRange(FilterRadius)
    ensures Validate(InferenceParams(pitch, extraction, 0.0, 0, 48001, 0.0, 0.0)) == OutOfRange(AudioResampling)
    ensures Validate(InferenceParams(pitch, extraction, 0.0, 0, -1, 0.0, 0.0)) == OutOfRange(AudioResampling)
    ensures Validate(InferenceParams(pitch, extraction, 0.0, 0, 0, 1.01, 0.0)) == OutOfRange(VolumeEnvelopeScaling)
    ensures Validate(InferenceParams(pitch, extraction, 0.0, 0, 0, -0.01, 0.0)) == OutOfRange(VolumeEnvelopeScaling)
    ensures Validate(InferenceParams(pitch, extraction, 0.0, 0, 0, 0.0, 0.51)) == OutOfRange(ArtifactProtection)
    ensures Validate(InferenceParams(pitch, extraction, 0.0, 0, 0, 0.0, -0.01)) == OutOfRange(ArtifactProtection)
  {
  }
}

=== FILE: paths.dfy ===
/** Backend-path normalisation: `to_relative_path` in src/gradio_helpers.py.
    A backend returns a path of its own file system; the dispatcher keeps the
    part of it that starts at the shared root directory and prefixes it with
    `./`. The separator is fixed to `/`. */
module Paths {
  import opened Wrappers

  /** The path separator, `os.sep` on a POSIX host. */
  const Sep: char := '/'

  /** Python's `s.split(sep)`: the pieces between separators, empty pieces
      kept, so the list is never empty. */
  function Split(s: string, sep: char): (parts: seq<string>)
    ensures |parts| >= 1
    decreases |s|
  {
    if |s| == 0 then [""]
    else
      var rest := Split(s[1..], sep);
      if s[0] == sep then [""] + rest
      else [[s[0]] + rest[0]] + rest[1..]
  }

  /** No piece of a split contains the separator. */
  lemma {:induction false} SplitPartsNoSep(s: string, sep: char)
    ensures forall k :: 0 <= k < |Split(s, sep)| ==> sep !in Split(s, sep)[k]
    decreases |s|
  {
    if |s| > 0 {
      SplitPartsNoSep(s[1..], sep);
      var rest := Split(s[1..], sep);
      if s[0] != sep {
        assert forall q :: 0 <= q < |[s[0]] + rest[0]| ==> ([s[0]] + rest[0])[q] != sep;
      }
    }
  }

  /** Python's `sep.join(parts)`. */
  function Join(sep: char, parts: seq<string>): string
  {
    if |parts| == 0 then ""
    else if |parts| == 1 then parts[0]
    else parts[0] + [sep] + Join(sep, parts[1..])
  }

  /** The total length of the parts. */
  function TotalLength(parts: seq<string>): nat
  {
    if |parts| == 0 then 0 else |parts[0]| + TotalLength(parts[1..])
  }

  /** A join of separator-free parts holds one separator between each two
      consecutive parts and no other, and its length is the parts' lengths
      plus those separators. */
  lemma {:induction false} JoinSeparatorCount(sep: char, parts: seq<string>)
    requires |parts| >= 1
    requires forall k :: 0 <= k < |parts| ==> sep !in parts[k]
    ensures multiset(Join(sep, parts))[sep] == |parts| - 1
    ensures |Join(sep, parts)| == TotalLength(parts) + |parts| - 1
    decreases |parts|
  {
    assert multiset(parts[0])[sep] == 0;
    if |parts| > 1 {
      JoinSeparatorCount(sep, parts[1..]);
      var j := parts[0] + [sep] + Join(sep, parts[1..]);
      assert multiset(j) == multiset(parts[0]) + multiset{sep} + multiset(Join(sep, parts[1..]));
    }
  }

  /** Python's `xs.index(x)`, with `None` where Python raises `ValueError`:
      the position of the FIRST element equal to `x`. */
  function IndexOf<T(==)>(xs: seq<T>, x: T): (r: Option<nat>)
    ensures r.None? <==> x !in xs
    ensures r.Some? ==> r.value < |xs| && xs[r.value] == x
    decreases |xs|
  {
    if |xs| == 0 then None
    else if xs[0] == x then Some(0)
    else
      match IndexOf(xs[1..], x)
      case None => None
      case Some(i) => Some(i + 1)
  }

  /** The index found is the first occurrence. */
  lemma {:induction false} IndexOfFirst<T>(xs: seq<T>, x: T)
    requires IndexOf(xs, x).Some?
    ensures forall j :: 0 <= j < IndexOf(xs, x).value ==> xs[j] != x
    decreases |xs|
  {
    if xs[0] != x {
      IndexOfFirst(xs[1..], x);
      assert forall j :: 1 <= j < |xs| ==> xs[j] == xs[1..][j - 1];
    }
  }

  /** The error `to_relative_path` raises when the base directory is absent. */
  datatype PathError = BaseDirNotFound(baseDir: string)

  /** `to_relative_path(original_path, base_dir)`: split the path, find the
      first segment equal to `base_dir`, and rebuild `./` followed by the
      segments from there on. */
  function ToRelativePath(originalPath: string, baseDir: string): (r: Result<string, PathError>)
    ensures r.Failure? <==> baseDir !in Split(originalPath, Sep)
    ensures r.Failure? ==> r.error == BaseDirNotFound(baseDir)
    ensures r.Success? ==> 2 <= |r.value| && r.value[..2] == ['.', Sep]
  {
    var parts := Split(originalPath, Sep);
    match IndexOf(parts, baseDir)
    case None => Failure(BaseDirNotFound(baseDir))
    case Some(i) => Success(['.', Sep] + Join(Sep, parts[i..]))
  }

  /** `seg` occurs in `path` at offset `k` as a whole segment: bounded on each
      side by a separator or by an end of the path. */
  predicate WholeSegmentAt(path: string, seg: string, k: nat)
  {
    && k + |seg| <= |path|
    && path[k..k + |seg|] == seg
    && (k == 0 || path[k - 1] == Sep)
    && (k + |seg| == |path| || path[k + |seg|] == Sep)
  }

  /** Where part `i` of `parts` begins in `Join(Sep, parts)`. */
  function Offset(parts: seq<string>, i: nat): nat
    requires i < |parts|
  {
    if i == 0 then 0 else |parts[0]| + 1 + Offset(parts[1..], i - 1)
  }

  // ---------------------------------------------------------------------
  // Split and Join are inverse to each other

  /** Joining the pieces of a split gives back the string. */
  lemma {:induction false} JoinSplit(s: string, sep: char)
    ensures Join(sep, Split(s, sep)) == s
    decreases |s|
  {
    if |s| > 0 {
      var rest := Split(s[1..], sep);
      var parts := Split(s, sep);
      JoinSplit(s[1..], sep);
      assert s == [s[0]] + s[1..];
      if s[0] == sep {
        assert parts[1..] == rest;
        assert Join(sep, parts) == "" + [sep] + Join(sep, rest);
      } else if |rest| == 1 {
        assert parts == [[s[0]] + rest[0]];
      } else {
        assert parts[1..] == rest[1..];
        calc {
          Join(sep, parts);
          parts[0] + [sep] + Join(sep, parts[1..]);
          ([s[0]] + rest[0]) + [sep] + Join(sep, rest[1..]);
          [s[0]] + (rest[0] + [sep] + Join(sep, rest[1..]));
          [s[0]] + Join(sep, rest);
        }
      }
    }
  }

  /** A separator-free string splits into itself alone. */
  lemma {:induction false} SplitNoSep(p: string, sep: char)
    requires sep !in p
    ensures Split(p, sep) == [p]
    decreases |p|
  {
    if |p| > 0 {
      assert sep !in p[1..];
      SplitNoSep(p[1..], sep);
      assert [p[0]] + p[1..] == p;
    }
  }

  /** A separator-free first piece splits off on its own. */
  lemma {:induction false} SplitConcat(a: string, c: string, sep: char)
    requires sep !in a
    ensures Split(a + [sep] + c, sep) == [a] + Split(c, sep)
    decreases |a|
  {
    var s := a + [sep] + c;
    if |a| == 0 {
      assert s[0] == sep && s[1..] == c;
    } else {
      assert s[0] == a[0] && s[1..] == a[1..] + [sep] + c;
      assert sep !in a[1..];
      SplitConcat(a[1..], c, sep);
      assert [a[0]] + a[1..] == a;
    }
  }

  /** Splitting a join of separator-free parts gives back the parts. */
  lemma {:induction false} SplitJoin(parts: seq<string>, sep: char)
    requires |parts| >= 1
    requires forall k :: 0 <= k < |parts| ==> sep !in parts[k]
    ensures Split(Join(sep, parts), sep) == parts
    decreases |parts|
  {
    if |parts| == 1 {
      SplitNoSep(parts[0], sep);
    } else {
      SplitJoin(parts[1..], sep);
      SplitConcat(parts[0], Join(sep, parts[1..]), sep);
      assert [parts[0]] + parts[1..] == parts;
    }
  }

  // ---------------------------------------------------------------------
  // Offsets of parts inside a joined string

  /** The joined string from part `i`'s offset on is the join of parts `i..`. */
  lemma {:induction false} JoinSuffix(parts: seq<string>, i: nat)
    requires i < |parts|
    ensures Offset(parts, i) <= |Join(Sep, parts)|
    ensures Join(Sep, parts)[Offset(parts, i)..] == Join(Sep, parts[i..])
    decreases i
  {
    if i > 0 {
      var p0 := parts[0];
      var tail := parts[1..];
      JoinSuffix(tail, i - 1);
      assert tail[i - 1..] == parts[i..];
      var o := Offset(tail, i - 1);
      assert Join(Sep, parts) == p0 + [Sep] + Join(Sep, tail);
      assert (p0 + [Sep] + Join(Sep, tail))[|p0| + 1 + o..] == Join(Sep, tail)[o..];
    }
  }

  /** Prefixing `pre` and a separator shifts whole-segment occurrences by `|pre| + 1`. */
  lemma ShiftSegment(pre: string, rest: string, seg: string, k: nat)
    ensures WholeSegmentAt(pre + [Sep] + rest, seg, |pre| + 1 + k) <==> WholeSegmentAt(rest, seg, k)
  {
    var j := pre + [Sep] + rest;
    var n := |pre| + 1;
    if k + |seg| <= |rest| {
      assert j[n + k..n + k + |seg|] == rest[k..k + |seg|];
      assert j[n + k - 1] == if k == 0 then Sep else rest[k - 1];
      if k + |seg| < |rest| {
        assert j[n + k + |seg|] == rest[k + |seg|];
      }
    }
  }

  /** Each part of a join of separator-free parts is a whole segment at its offset. */
  lemma {:induction false} SegmentAtOffset(parts: seq<string>, i: nat)
    requires i < |parts|
    requires forall k :: 0 <= k < |parts| ==> Sep !in parts[k]
    ensures WholeSegmentAt(Join(Sep, parts), parts[i], Offset(parts, i))
    decreases i
  {
    var p0 := parts[0];
    if i == 0 {
      if |parts| > 1 {
        var j := Join(Sep, parts);
        assert j == p0 + [Sep] + Join(Sep, parts[1..]);
        assert j[..|p0|] == p0;
        assert j[|p0|] == Sep;
      }
    } else {
      var tail := parts[1..];
      SegmentAtOffset(tail, i - 1);
      ShiftSegment(p0, Join(Sep, tail), parts[i], Offset(tail, i - 1));
    }
  }

  /** Conversely, a separator-free whole segment of a join is one of its parts. */
  lemma {:induction false} SegmentIsPart(parts: seq<string>, seg: string, k: nat)
    requires |parts| >= 1
    requires forall q :: 0 <= q < |parts| ==> Sep !in parts[q]
    requires Sep !in seg
    requires WholeSegmentAt(Join(Sep, parts), seg, k)
    ensures exists i :: 0 <= i < |parts| && parts[i] == seg && Offset(parts, i) == k
    decreases |parts|
  {
    var p0 := parts[0];
    var j := Join(Sep, parts);
    if |parts| == 1 {
      assert j == p0;
      assert forall q :: 0 <= q < |j| ==> j[q] != Sep;
      assert k == 0;
      assert |seg| == |p0|;
      assert parts[0] == seg && Offset(parts, 0) == k;
    } else {
      var tail := parts[1..];
      assert j == p0 + [Sep] + Join(Sep, tail);
      assert forall q :: 0 <= q < |p0| ==> j[q] == p0[q] && j[q] != Sep;
      assert j[|p0|] == Sep;
      assert k + |seg| <= |j| && |seg| > |p0| ==> seg[|p0|] == j[k + |p0|];
      if k <= |p0| {
        assert k == 0;
        assert |seg| == |p0|;
        assert parts[0] == seg && Offset(parts, 0) == k;
      } else {
        var k' := k - |p0| - 1;
        ShiftSegment(p0, Join(Sep, tail), seg, k');
        SegmentIsPart(tail, seg, k');
        var i' :| 0 <= i' < |tail| && tail[i'] == seg && Offset(tail, i') == k';
        assert parts[i' + 1] == seg && Offset(parts, i' + 1) == k;
      }
    }
  }

  /** Later parts begin at later offsets. */
  lemma {:induction false} OffsetMonotone(parts: seq<string>, i: nat, j: nat)
    requires i < j < |parts|
    ensures Offset(parts, i) < Offset(parts, j)
    decreases i
  {
    if i > 0 {
      OffsetMonotone(parts[1..], i - 1, j - 1);
    }
  }

  /** A join ends with its last part. */
  lemma {:induction false} JoinEndsWithLast(parts: seq<string>)
    requires |parts| >= 1
    ensures |parts[|parts| - 1]| <= |Join(Sep, parts)|
    ensures Join(Sep, parts)[|Join(Sep, parts)| - |parts[|parts| - 1]|..] == parts[|parts| - 1]
    decreases |parts|
  {
    if |parts| > 1 {
      var tail := parts[1..];
      JoinEndsWithLast(tail);
      var j := Join(Sep, parts);
      var t := Join(Sep, tail);
      var last := parts[|parts| - 1];
      assert tail[|tail| - 1] == last;
      assert j == parts[0] + [Sep] + t;
      assert j[|j| - |last|..] == t[|t| - |last|..];
    }
  }

  // ---------------------------------------------------------------------
  // Properties of to_relative_path

  /** For a separator-free base directory, `to_relative_path` succeeds exactly
      when the base directory is a whole segment of the path (a partial match
      such as `sharedX` does not count). The result is then `./` followed by
      the suffix of the path that starts at the FIRST such segment. */
  lemma ToRelativePathSegment(originalPath: string, baseDir: string)
    requires Sep !in baseDir
    ensures ToRelativePath(originalPath, baseDir).Success?
        <==> exists k: nat :: WholeSegmentAt(originalPath, baseDir, k)
    ensures ToRelativePath(originalPath, baseDir).Success? ==>
      exists k: nat ::
        && WholeSegmentAt(originalPath, baseDir, k)
        && (forall k': nat :: k' < k ==> !WholeSegmentAt(originalPath, baseDir, k'))
        && ToRelativePath(originalPath, baseDir).value == ['.', Sep] + originalPath[k..]
  {
    var parts := Split(originalPath, Sep);
    JoinSplit(originalPath, Sep);
    SplitPartsNoSep(originalPath, Sep);
    match IndexOf(parts, baseDir)
    case Some(i) =>
      IndexOfFirst(parts, baseDir);
      SegmentAtOffset(parts, i);
      JoinSuffix(parts, i);
      FirstSegment(parts, i);
      var k := Offset(parts, i);
      assert WholeSegmentAt(originalPath, baseDir, k);
    case None =>
      NoSegment(parts, baseDir);
  }

  /** Part `i`, when no earlier part equals it, is the first whole-segment
      occurrence of that part in the join. */
  lemma FirstSegment(parts: seq<string>, i: nat)
    requires i < |parts|
    requires forall q :: 0 <= q < |parts| ==> Sep !in parts[q]
    requires forall j :: 0 <= j < i ==> parts[j] != parts[i]
    ensures forall k': nat :: k' < Offset(parts, i) ==> !WholeSegmentAt(Join(Sep, parts), parts[i], k')
  {
    forall k': nat | k' < Offset(parts, i)
      ensures !WholeSegmentAt(Join(Sep, parts), parts[i], k')
    {
      if WholeSegmentAt(Join(Sep, parts), parts[i], k') {
        NotBeforeFirst(parts, i, k');
      }
    }
  }

  /** Every whole-segment occurrence of part `i` lies at or after its offset
      when no earlier part equals it. */
  lemma NotBeforeFirst(parts: seq<string>, i: nat, k: nat)
    requires i < |parts|
    requires forall q :: 0 <= q < |parts| ==> Sep !in parts[q]
    requires forall j :: 0 <= j < i ==> parts[j] != parts[i]
    requires WholeSegmentAt(Join(Sep, parts), parts[i], k)
    ensures Offset(parts, i) <= k
  {
    SegmentIsPart(parts, parts[i], k);
    var j :| 0 <= j < |parts| && parts[j] == parts[i] && Offset(parts, j) == k;
    if j > i {
      OffsetMonotone(parts, i, j);
    }
  }

  /** A separator-free string that is not a part is no whole segment of the join. */
  lemma NoSegment(parts: seq<string>, seg: string)
    requires |parts| >= 1
    requires forall q :: 0 <= q < |parts| ==> Sep !in parts[q]
    requires Sep !in seg && seg !in parts
    ensures forall k: nat :: !WholeSegmentAt(Join(Sep, parts), seg, k)
  {
    forall k: nat | WholeSegmentAt(Join(Sep, parts), seg, k)
      ensures false
    {
      SegmentIsPart(parts, seg, k);
    }
  }

  /** A base directory containing the separator never matches. */
  lemma ToRelativePathSepInBase(originalPath: string, baseDir: string)
    requires Sep in baseDir
    ensures ToRelativePath(originalPath, baseDir) == Failure(BaseDirNotFound(baseDir))
  {
    SplitPartsNoSep(originalPath, Sep);
  }

  /** On success the result starts with `./` and the base directory, followed
      by a separator or the end, and ends with the path's last segment (the
      file name). */
  lemma ToRelativePathShape(originalPath: string, baseDir: string, r: string)
    requires ToRelativePath(originalPath, baseDir) == Success(r)
    ensures 2 + |baseDir| <= |r|
    ensures r[..2 + |baseDir|] == ['.', Sep] + baseDir
    ensures |r| == 2 + |baseDir| || r[2 + |baseDir|] == Sep
    ensures var parts := Split(originalPath, Sep);
      var name := parts[|parts| - 1];
      |name| <= |r| && r[|r| - |name|..] == name
  {
    var parts := Split(originalPath, Sep);
    var i := IndexOf(parts, baseDir).value;
    assert r == ['.', Sep] + Join(Sep, parts[i..]);
    DottedJoinShape(parts, i);
  }

  /** `./` followed by the join of `parts[i..]` starts with `./` and part `i`,
      followed by a separator or the end, and ends with the last part. */
  lemma DottedJoinShape(allParts: seq<string>, i: nat)
    requires i < |allParts|
    ensures var r := ['.', Sep] + Join(Sep, allParts[i..]);
      && 2 + |allParts[i]| <= |r|
      && r[..2 + |allParts[i]|] == ['.', Sep] + allParts[i]
      && (|r| == 2 + |allParts[i]| || r[2 + |allParts[i]|] == Sep)
    ensures var r := ['.', Sep] + Join(Sep, allParts[i..]);
      var last := allParts[|allParts| - 1];
      && |last| <= |r|
      && r[|r| - |last|..] == last
  {
    var parts := allParts[i..];
    assert parts[0] == allParts[i];
    assert parts[|parts| - 1] == allParts[|allParts| - 1];
    var j := Join(Sep, parts);
    var r := ['.', Sep] + j;
    var first := parts[0];
    var last := parts[|parts| - 1];
    if |parts| > 1 {
      assert j == first + [Sep] + Join(Sep, parts[1..]);
      assert j[|first|] == Sep;
    }
    assert j[..|first|] == first;
    assert r[..2 + |first|] == ['.', Sep] + j[..|first|];
    JoinEndsWithLast(parts);
    assert r[|r| - |last|..] == j[|j| - |last|..];
  }

  /** Splitting a result of `to_relative_path` gives `.` followed by the
      parts from the matched segment on. */
  lemma SplitRelative(parts: seq<string>, i: nat)
    requires i < |parts|
    requires forall k :: 0 <= k < |parts| ==> Sep !in parts[k]
    ensures Split(['.', Sep] + Join(Sep, parts[i..]), Sep) == ["."] + parts[i..]
  {
    assert ['.', Sep] + Join(Sep, parts[i..]) == "." + [Sep] + Join(Sep, parts[i..]);
    SplitConcat(".", Join(Sep, parts[i..]), Sep);
    SplitJoin(parts[i..], Sep);
  }

  /** For a base directory other than `.`, normalising an already normalised
      path with the same base directory changes nothing. */
  lemma ToRelativePathIdempotent(originalPath: string, baseDir: string, r: string)
    requires baseDir != "."
    requires ToRelativePath(originalPath, baseDir) == Success(r)
    ensures ToRelativePath(r, baseDir) == Success(r)
  {
    var parts := Split(originalPath, Sep);
    var i := IndexOf(parts, baseDir).value;
    assert r == ['.', Sep] + Join(Sep, parts[i..]);
    SplitPartsNoSep(originalPath, Sep);
    SplitRelative(parts, i);
    var again := ["."] + parts[i..];
    assert again[1] == baseDir;
    assert IndexOf(again, baseDir) == Some(1);
    assert again[1..] == parts[i..];
  }

  /** With `.` as base directory the operation is not idempotent: the `.`
      it adds is itself found first, so each application adds one more `./`. */
  lemma ToRelativePathDotBase(originalPath: string, r: string)
    requires ToRelativePath(originalPath, ".") == Success(r)
    ensures ToRelativePath(r, ".") == Success(['.', Sep] + r)
  {
    var parts := Split(originalPath, Sep);
    var i := IndexOf(parts, ".").value;
    assert r == ['.', Sep] + Join(Sep, parts[i..]);
    SplitPartsNoSep(originalPath, Sep);
    SplitRelative(parts, i);
    var again := ["."] + parts[i..];
    assert Split(r, Sep) == again;
    assert IndexOf(again, ".") == Some(0);
    assert again[0..] == again;
    assert again[1..] == parts[i..];
    assert Join(Sep, again) == ['.', Sep] + Join(Sep, parts[i..]);
  }

  /** A path whose base-directory segment follows one other segment keeps
      everything from the base directory on. */
  lemma ToRelativePathAfterOneSegment(dir: string, baseDir: string, rest: string)
    requires Sep !in dir && Sep !in baseDir && dir != baseDir
    ensures ToRelativePath(dir + [Sep] + baseDir + [Sep] + rest, baseDir)
         == Success(['.', Sep] + baseDir + [Sep] + rest)
  {
    SplitTwoSegments(dir, baseDir, rest);
    var suffix := [baseDir] + Split(rest, Sep);
    var parts := [dir] + suffix;
    assert IndexOf(parts, baseDir) == Some(1);
    assert parts[1..] == suffix;
    JoinCons(baseDir, Split(rest, Sep));
    JoinSplit(rest, Sep);
    assert ['.', Sep] + (baseDir + [Sep] + rest) == ['.', Sep] + baseDir + [Sep] + rest;
  }

  /** Two separator-free leading segments split off on their own. */
  lemma SplitTwoSegments(a: string, b: string, rest: string)
    requires Sep !in a && Sep !in b
    ensures Split(a + [Sep] + b + [Sep] + rest, Sep) == [a] + ([b] + Split(rest, Sep))
  {
    var tail := b + [Sep] + rest;
    assert a + [Sep] + b + [Sep] + rest == a + [Sep] + tail;
    SplitConcat(b, rest, Sep);
    SplitConcat(a, tail, Sep);
  }

  /** Joining a part in front of a non-empty list puts a separator between. */
  lemma JoinCons(p: string, parts: seq<string>)
    requires |parts| >= 1
    ensures Join(Sep, [p] + parts) == p + [Sep] + Join(Sep, parts)
  {
    assert ([p] + parts)[1..] == parts;
  }

  /** A segment that merely starts with the base directory, such as
      `sharedX` for `shared`, is not a match. */
  lemma ToRelativePathPartialMatch(dir: string, baseDir: string, extra: string, name: string)
    requires Sep !in dir && Sep !in baseDir && Sep !in extra && Sep !in name
    requires extra != [] && dir != baseDir && name != baseDir
    ensures ToRelativePath(dir + [Sep] + (baseDir + extra) + [Sep] + name, baseDir)
         == Failure(BaseDirNotFound(baseDir))
  {
    var m := baseDir + extra;
    assert forall q :: 0 <= q < |m| ==> m[q] != Sep by {
      assert forall q :: 0 <= q < |m| ==> m[q] == if q < |baseDir| then baseDir[q] else extra[q - |baseDir|];
    }
    SplitTwoSegments(dir, m, name);
    SplitNoSep(name, Sep);
    assert Split(dir + [Sep] + m + [Sep] + name, Sep) == [dir, m, name];
    assert |m| > |baseDir|;
  }
}

=== FILE: pool.dfy ===
/** The worker pool of src/main.py: one handle per backend URL with a busy
    flag, created once by `initialize_clients`, scanned first-free by
    `get_available_client`, released by clearing the flag. The gradio
    `Client` object each handle also holds is a foreign RPC session and is
    left out; a handle is its URL and its flag. */
module Pool {
  import opened Wrappers

  /** `GradioClientInfo` without its RPC client. */
  datatype Handle = Handle(url: string, busy: bool)

  /** The process-wide `clients` list. */
  type Handles = seq<Handle>

  /** `GRADIO_SERVER_URLS`: the configured backends. */
  const GradioServerUrls: seq<string> :=
    ["http://localhost:7865/", "http://localhost:7866/", "http://localhost:7867/"]

  /** `initialize_clients`: one free handle per configured URL, in list order. */
  function InitializeClients(urls: seq<string>): (pool: Handles)
    ensures |pool| == |urls|
    ensures forall i :: 0 <= i < |urls| ==> pool[i].url == urls[i] && !pool[i].busy
  {
    seq(|urls|, i requires 0 <= i < |urls| => Handle(urls[i], false))
  }

  /** The handle a scan hands out, and the pool after the scan marked it busy. */
  datatype Acquired = Acquired(index: nat, pool: Handles)

  /** One pass of `get_available_client`'s `for` loop: the first handle whose
      flag is clear is marked busy and returned; when every handle is busy
      the pass finds nothing (the caller sleeps and scans again). */
  function Acquire(pool: Handles): (r: Option<Acquired>)
    ensures r.None? <==> forall i :: 0 <= i < |pool| ==> pool[i].busy
    ensures r.Some? ==>
      && r.value.index < |pool|
      && !pool[r.value.index].busy
      && (forall j :: 0 <= j < r.value.index ==> pool[j].busy)
      && |r.value.pool| == |pool|
      && r.value.pool[r.value.index] == Handle(pool[r.value.index].url, true)
      && (forall j :: 0 <= j < |pool| && j != r.value.index ==> r.value.pool[j] == pool[j])
    decreases |pool|
  {
    if |pool| == 0 then None
    else if !pool[0].busy then Some(Acquired(0, [Handle(pool[0].url, true)] + pool[1..]))
    else
      match Acquire(pool[1..])
      case None => None
      case Some(a) => Some(Acquired(a.index + 1, [pool[0]] + a.pool))
  }

  /** `gradio_client.busy = False`: clear the flag of handle `i`. */
  function Release(pool: Handles, i: nat): (r: Handles)
    requires i < |pool|
    ensures |r| == |pool|
    ensures !r[i].busy && r[i].url == pool[i].url
    ensures forall j :: 0 <= j < |pool| && j != i ==> r[j] == pool[j]
    ensures !pool[i].busy ==> r == pool
  {
    pool[i := Handle(pool[i].url, false)]
  }

  /** How many handles are in use. */
  function BusyCount(pool: Handles): (n: nat)
    ensures n <= |pool|
    ensures n == 0 <==> forall i :: 0 <= i < |pool| ==> !pool[i].busy
    ensures n == |pool| <==> forall i :: 0 <= i < |pool| ==> pool[i].busy
  {
    if |pool| == 0 then 0
    else (if pool[0].busy then 1 else 0) + BusyCount(pool[1..])
  }

  /** Replacing one handle changes the busy count by the change in its flag. */
  lemma {:induction false} BusyCountUpdate(pool: Handles, i: nat, h: Handle)
    requires i < |pool|
    ensures BusyCount(pool[i := h]) + (if pool[i].busy then 1 else 0)
         == BusyCount(pool) + (if h.busy then 1 else 0)
    decreases i
  {
    if i > 0 {
      BusyCountUpdate(pool[1..], i - 1, h);
      assert pool[i := h][1..] == pool[1..][i - 1 := h];
    }
  }

  /** Releasing the handle a scan acquired restores the pool exactly:
      acquire and release are inverse. */
  lemma ReleaseUndoesAcquire(pool: Handles)
    requires Acquire(pool).Some?
    ensures Release(Acquire(pool).value.pool, Acquire(pool).value.index) == pool
  {
    var a := Acquire(pool).value;
    var r := Release(a.pool, a.index);
    assert forall j :: 0 <= j < |pool| ==> r[j] == pool[j];
  }

  /** A successful scan takes exactly one more handle into use. */
  lemma AcquireCountsOne(pool: Handles)
    requires Acquire(pool).Some?
    ensures BusyCount(Acquire(pool).value.pool) == BusyCount(pool) + 1
  {
    var a := Acquire(pool).value;
    assert a.pool == pool[a.index := Handle(pool[a.index].url, true)];
    BusyCountUpdate(pool, a.index, Handle(pool[a.index].url, true));
  }

  /** Releasing a busy handle takes exactly one handle out of use. */
  lemma ReleaseCountsOne(pool: Handles, i: nat)
    requires i < |pool| && pool[i].busy
    ensures BusyCount(Release(pool, i)) + 1 == BusyCount(pool)
  {
    BusyCountUpdate(pool, i, Handle(pool[i].url, false));
  }

  /** Releasing twice is the same as releasing once. */
  lemma ReleaseIdempotent(pool: Handles, i: nat)
    requires i < |pool|
    ensures Release(Release(pool, i), i) == Release(pool, i)
  {
  }

  /** On a freshly initialised pool no handle is in use, and the first scan
      hands out the first backend. */
  lemma AcquireFresh(urls: seq<string>)
    requires |urls| > 0
    ensures BusyCount(InitializeClients(urls)) == 0
    ensures Acquire(InitializeClients(urls)).Some? && Acquire(InitializeClients(urls)).value.index == 0
  {
  }

  /** The configured pool has three handles, and the first request goes to
      the backend on port 7865. */
  lemma ConfiguredPoolFirstScan()
    ensures |InitializeClients(GradioServerUrls)| == 3
    ensures Acquire(InitializeClients(GradioServerUrls)).Some?
    ensures Acquire(InitializeClients(GradioServerUrls)).value.pool[0] == Handle("http://localhost:7865/", true)
  {
  }
}

=== FILE: wrappers.dfy ===
/** Failure-carrying datatypes shared by the model: the Python code signals
    "nothing found" with `None` and errors with exceptions; here both become
    values. */
module Wrappers {

  /** An optional value, as Python's `Optional[T]`. */
  datatype Option<T> = None | Some(value: T)

  /** The outcome of an operation that may raise: a value, or the error it raised. */
  datatype Result<T, E> = Success(value: T) | Failure(error: E)
}
